=== FILE: README.md ===
# Gus Space Adventure: a Dafny model of the simulation core

This project models the simulation core of a small Tkinter arcade game. The
player steers a ship with W, A, S and D through a field of asteroids and
power-ups that scroll in from the right. The ship has hit points (hp), fuel
and a score. When the game ends, the score is ranked into a per-difficulty
leaderboard.

The model covers the following.

- **Collision** (`Collidable.collided`): a strict circle-overlap test. The
  square root is replaced by a comparison of squares, each square built up as
  a sum of odd numbers (`Geometry.SqIsProduct` proves it is the product). Lemmas relate it to the
  real distance, prove it symmetric, and prove that touching circles do not
  collide.
- **Drift** (`Driftable.drift`, `drift_all`, `destroy`): every object moves by
  its own `(dx, dy)`. `drift_all` reports, in ascending order, exactly the
  indices that are now past the left edge. A destroyed object has its x set to
  an explicit negative-infinity coordinate, `Coord.NegInf`. Adding any offset
  to it leaves it there, it never overlaps anything, and it is always reported
  off-screen.
- **Ship movement** (`SpaceshipModel.move`): the fuel cost is flat, opposite
  keys cancel, and each axis has its own edge guard.
- **Collision effects** (the four `aftermath` methods), a tagged `Kind`
  dispatched by `match`:
  - an asteroid takes one hp;
  - an HP power-up heals one hp, capped at 9;
  - a fuel power-up adds 20 fuel, capped at 100;
  - a score power-up adds 5000 score.
- **Controller** (`Game.set_initial_values`, the loop in `Game.start`): the
  difficulty presets, the initial state, one tick, and the loop that runs
  while hp > 0 and `q` is not held.
- **Spawner** (`generate_asteroid_model`, `generate_powerup`): random draws
  are parameters restricted to the ranges of the source's inclusive `randint`
  calls. The power-up is always a fuel power-up when fuel is below 40.
- **Leaderboard ranking** (the pure part of `LeaderboardModel.update`): append
  the new entry, sort by `(-score, timestamp, username)`, pop the last entry.

Positions, radii and velocities are integers, as in the source, which draws
them with `randint`. Fuel and the fuel cost are `real`, so 0.2 and 0.25 are
exact. The string-keyed `GameModel` dictionary becomes the `Game` record:
a ship, a sequence of asteroid slots, one power-up slot, and the fuel cost.

Files: `geometry.dfy` (module `Geometry`), `objects.dfy` (`Objects`),
`spaceship.dfy` (`Spaceship`), `effects.dfy` (`Effects`), `spawner.dfy`
(`Spawner`), `controller.dfy` (`Controller` and `GameLaws`) and
`leaderboard.dfy` (`Leaderboard`).

Facts about the code that a reader might not expect:

- Spawn ranges are inclusive at both ends, as `randint` is: asteroid
  `x ∈ [800, 1600]`, `y ∈ [40, 760]`, `r ∈ [20, 40]`, and every value in
  them can be drawn (`Spawner.GenerateAsteroidCovers`).
- hp has no lower clamp. Several asteroids hit in one tick can take hp below 0
  (`GameLaws.HpCanGoNegative`), so `0 ≤ hp` is not an invariant of the game.
- The movement guard only tests that the centre is more than one radius from
  the edge, so in general a step can overshoot. The ship's hitbox stays in the
  field only because the start position (150, 400), the radius 40, the speed
  10 and the 800×800 field are all multiples of 10
  (`Spaceship.MoveStaysInField`, `GameLaws.TickPreservesInvariant`).
- Fuel stays in `[0, 100]` only because every value it takes is a whole number
  of cost steps (0.2 or 0.25), and 20 and 100 are both whole numbers of steps.
  This holds in exact arithmetic, which is what the model uses.

## Model

| member | source | states |
|---|---|---|
| Geometry.Overlaps | model.py:86-91 | the collision test: finite centres whose squared distance is strictly below the squared sum of the radii; it has no contract of its own, and the rows below state what it means |
| Geometry.OverlapsIffCloserThanRadii | model.py:86-91 | for any non-negative real `d` whose square is the squared centre distance, a collision fires exactly when `d < r1 + r2`; so touching circles do not collide |
| Geometry.OverlapsSymmetric | model.py:86-91 | the collision test gives the same answer with the two objects swapped |
| Geometry.SeparatedAlongXNoOverlap | model.py:86-91 | circles whose centres are at least `r1 + r2` apart on the x-axis never collide, whatever their rows |
| Geometry.OverlapsWithinRadii | model.py:86-91 | overlapping circles are closer than the sum of their radii along each axis separately |
| Objects.Destroy | model.py:103-105 | a destroyed object sits at negative infinity, is off-screen, and keeps every other field |
| Objects.Drift | model.py:107-109 | only the position changes: y moves by exactly `dy`, a finite x by exactly `dx`, and a destroyed object stays at negative infinity |
| Objects.DriftAll | model.py:112-124 | one moved object per input object, and every reported index is a valid position in the list |
| Objects.DriftAllMoves | model.py:107-124 | every object moves by exactly its own `(dx, dy)` and nothing else about it changes; the returned indices are strictly ascending, and are exactly those whose moved `x + r < 0` |
| Objects.DestroyedIsReportedOffScreen | model.py:103-124 | an object destroyed before a `drift_all` is reported off-screen by it, whatever its velocity or radius |
| Objects.DestroyedNeverOverlaps | model.py:103-105 | a destroyed object overlaps no hitbox and is off-screen after drifting |
| Spaceship.NewShip | model.py:135-141 | a new ship has the given position, radius, hp and fuel, score 0 and speed 10; it has no contract of its own, and `Controller.SetInitialValues` states the ship it builds |
| Spaceship.Move | model.py:143-168 | fuel drops by exactly the cost iff some axis has one key of its pair held; opposite keys cancel on that axis; a left, right, up or down step of `speed` happens only when the centre is more than one radius from that edge; only x, y and fuel change |
| Spaceship.MoveStaysInField | model.py:160-168 | a ship whose hitbox is inside the field and whose centre is on the speed grid stays inside the field and on the grid after any move |
| Effects.Aftermath | model.py:171-204 | an asteroid takes exactly one hp; an HP power-up raises hp by one but never above 9; a fuel power-up adds 20 fuel but never above 100; a score power-up adds 5000; each effect changes only its own field |
| Effects.Collide | model.py:86-91 | the object changes exactly when the ship overlaps it; then it is destroyed and the ship takes its kind's effect, and otherwise the ship is unchanged too |
| Effects.CollideIsIdempotent | model.py:86-105 | a collision never moves the ship, and testing an object that was just hit again changes nothing |
| Effects.CollideAll | main.py:83-84 | the ship keeps its place and never loses score; against asteroids only, hp drops by the number of hits |
| Effects.CollideAllDestroysHits | main.py:83-84 | exactly the objects the ship overlaps are destroyed, and the others are left as they were |
| Effects.HitsCountsOverlaps | main.py:83-84 | the hit count is at most the number of objects, and is zero iff no object overlaps the ship |
| Spawner.GenerateAsteroid | main.py:24-27 | a new asteroid has `x ∈ [800, 1600]`, `y ∈ [40, 760]`, `r ∈ [20, 40]`, `dx ∈ [-6, -4]` and `dy = 0` |
| Spawner.GeneratePowerUp | main.py:29-42 | a new power-up is never an asteroid, is always fuel when ship fuel is below 40, and has `x = 900`, `r = 36`, `y ∈ [36, 764]`, `dx ∈ [-6, -4]`, `dy = 0` |
| Spawner.EveryPowerUpKindReachable | main.py:36-42 | with fuel at 40 or more, each of HP, fuel and score can be spawned |
| Spawner.GenerateAsteroidCovers | main.py:24-27 | every asteroid in the ranges, both ends included (`x ∈ [800, 1600]`, `y ∈ [40, 760]`, `r ∈ [20, 40]`, `dx ∈ [-6, -4]`), is spawned by some valid draw |
| Spawner.GeneratePowerUpCovers | main.py:29-42 | every power-up at x = 900 with r = 36, any row in [36, 764], any `dx ∈ [-6, -4]` and any non-asteroid kind (fuel only when fuel is below 40) is spawned by some valid draw |
| Spawner.SpawnedNotOffScreen | main.py:24-42 | a freshly spawned asteroid or power-up is not off-screen, even after one drift |
| Controller.PresetOf | main.py:46-57 | each level up adds five asteroids (10, 15, 20) and takes one starting hp (5, 4, 3); only the hardest level raises the move cost, from 0.2 to 0.25 |
| Controller.HarderIsNeverEasier | main.py:46-57 | a harder difficulty never has fewer asteroids, more starting hp or a cheaper move |
| Controller.SetInitialValues | main.py:44-65 | the ship starts at (150, 400) with r = 40, the level's hp, fuel 100, score 0 and speed 10; the level fixes the asteroid count (10/15/20) and the cost (0.2/0.2/0.25); each slot holds the asteroid spawned from its draw; the power-up slot holds the power-up spawned for the new ship from its draw; the start state satisfies the loop invariant |
| Controller.Steer | main.py:79-81 | an empty tank leaves the ship where it is; otherwise fuel drops by exactly one cost step iff some axis is steered; only position and fuel change |
| Controller.ReplaceAt | main.py:88-89 | the refill loop keeps the row's length |
| Controller.ReplaceAtSlot | main.py:88-89 | after the refill loop, a listed slot holds the asteroid spawned from its draw and every other slot is untouched |
| Controller.DriftAndRefill | main.py:87-89 | drifting and refilling keeps the number of asteroid slots |
| Controller.DriftAndRefillSlot | main.py:87-89 | each asteroid slot holds its drifted asteroid, or the fresh one spawned from the slot's draw if the drifted one is off-screen |
| Controller.DriftOrReplacePowerUp | main.py:90-91 | the power-up drifts, and is replaced by a spawned one exactly when it is off-screen afterwards |
| Controller.Collisions | main.py:79-85 | steering happens first; the ship keeps its radius and speed and never loses score; the power-up is destroyed exactly when the steered ship overlaps it; hp drops by the number of asteroid hits before the power-up's effect applies |
| Controller.CollisionsDestroyHits | main.py:83-84 | an asteroid is destroyed exactly when the steered ship overlaps it |
| Controller.Tick | main.py:79-96 | the number of asteroid slots and the cost are unchanged; the ship ends where steering put it, keeps its radius and speed, and gains at least 10 score |
| Controller.TickPowerUp | main.py:85-91 | an undisturbed power-up moves by exactly its velocity; one that was picked up or drifted off-screen is replaced by the power-up spawned from the tick's draw for the ship as the collisions left it, so it is fuel when the ship ends the tick low on fuel |
| Controller.Run | main.py:78-96 | the final state is the state reached by running exactly the ticks that ran, in order; every tick that ran started from a state with hp > 0 and without `q` held; the loop stops exactly at the first tick whose start has hp ≤ 0 or `q` held; the slot count never changes; score rises by at least 10 per tick run |
| Controller.TickRefillsInPlace | main.py:87-89 | slot i keeps its asteroid, moved by exactly its own `(dx, dy)`, unless the ship hit it or it drifted off-screen; then it holds the asteroid spawned from slot i's draw |
| GameLaws.BurnStaysOnGrid | model.py:157-158 | burning one cost step from positive fuel that is a whole number of steps leaves non-negative fuel, still a whole number of steps |
| GameLaws.RefuelStaysOnGrid | model.py:192-195 | after a fuel power-up, fuel is still a whole number of cost steps |
| GameLaws.SteerKeepsShipBounds | main.py:79-81 | steering keeps the ship in the field with fuel in [0, 100] |
| GameLaws.CollisionsKeepShipBounds | main.py:83-85 | collisions keep hp ≤ 9 and fuel in [0, 100] |
| GameLaws.BonusKeepsShipBounds | main.py:96 | the survival bonus keeps the ship bounds |
| GameLaws.TickKeepsKinds | main.py:87-91 | after a tick the asteroid slots hold asteroids and the power-up slot holds a power-up |
| GameLaws.TickPreservesInvariant | main.py:79-96 | every tick keeps the ship in the field, hp ≤ 9, 0 ≤ fuel ≤ 100, score ≥ 0, and the slot kinds |
| GameLaws.RunPreservesInvariant | main.py:78-96 | the invariant holds in every state the loop reaches |
| GameLaws.GameOverIsFinal | main.py:78 | once hp ≤ 0 no further tick runs, whatever the input |
| GameLaws.TickScore | main.py:85-96 | a tick adds exactly 10 to the score, plus 5000 if the ship picked up a score power-up; asteroids never change the score |
| GameLaws.IdleTickKeepsShip | main.py:79-85 | with no net steering the ship keeps its position, and also its fuel unless it picked up fuel |
| GameLaws.QuietTick | main.py:79-96 | a tick without steering, hits or off-screen objects only adds 10 to the score and moves every object by exactly its own velocity |
| GameLaws.OpeningTickWithoutKeys | main.py:59-96 | from a fresh start with no steering, one tick leaves the ship at (150, 400) with full fuel and its starting hp, makes the score 10, and moves every object by exactly its own velocity |
| GameLaws.TickLosesHpPerHit | main.py:83-85 | unless the ship picks up an HP power-up, a tick costs exactly one hp per asteroid the steered ship overlaps |
| GameLaws.LastHpLostEndsGame | main.py:78-85 | a ship on 1 hp that hits an asteroid, without picking up HP in the same tick, ends with hp ≤ 0, and no further tick runs |
| GameLaws.HpCanGoNegative | model.py:174-177 | a state that satisfies the invariant, with hp 1, an empty tank, score 5000 (the bonus of the 500 ticks needed to empty it), the easy level's ten asteroid slots and two asteroids under the ship, ends the next tick at hp -1 whatever the keys and draws, because asteroid hits are not clamped |
| GameLaws.TwoRocksJustArrived | main.py:83-89 | the two asteroids of that state were clear of the ship's hitbox one tick earlier and reached it by their own drift, not by being spawned on it |
| Leaderboard.BeforeIsStrictTotalOrder | model.py:56-57 | the sort key `(-score, timestamp, username)` orders entries strictly and totally, so two distinct entries never tie |
| Leaderboard.Sort | model.py:56-57 | the sorted board is ordered by the key and is a permutation of the input |
| Leaderboard.Rank | model.py:50-58 | the kept board is as long as the old one and is ordered by the key; the kept board plus the popped entry is exactly the old board plus the new entry; every kept entry may stand ahead of the popped one |
| Leaderboard.PopLast | model.py:58 | popping the last entry of a sorted board leaves a sorted board whose every entry may stand ahead of the popped one, and together they are the whole board |
| Leaderboard.NewEntryKeptWhenBeatable | model.py:54-58 | if some old entry does not rank ahead of the new one, the new entry stays on the board |
| Leaderboard.NewEntryDroppedWhenWorst | model.py:54-58 | if every old entry ranks strictly ahead of the new one, the new entry is the one popped and is not on the board |
| Leaderboard.NewEntryKeptIff | model.py:54-58 | the new entry survives iff some old entry does not rank ahead of it |

## Left out

- view.py is not part of this model. It holds the canvas drawing, menus,
  image loading and the username field, including its 1 to 12 character check.
- `LeaderboardModel.__init__`, `get` and the write in `update` are left out.
  They do remote store access and `strptime`/`strftime` timestamp conversion.
  Timestamps are integers, and only the append-sort-pop step is modelled.
  Concurrent updates, which can lose an entry, are out of scope for the same
  reason.
- Event binding, the key and mouse handlers, menu navigation, `mainloop`,
  `sleep` pacing, `draw_all`/`delete_all` and `end_game` are left out. They
  are UI and event-loop plumbing. The held keys are a per-tick input.
- Randomness: `randint` and `choice` results are parameters restricted to
  their ranges. Each asteroid slot carries its own draw, rather than the
  source's one draw per off-screen index in ascending order; the distribution
  is the same. `generate_powerup` draws a row and a speed for each of its three
  candidates and then picks one; the model draws one pick, one row and one
  speed.
- Floating point: fuel, the cost and the square root are exact. With IEEE
  doubles, fuel steps of 0.2 do not hit 0 exactly, so in the source fuel can
  end slightly below 0 after its last move. The model's `fuel ≥ 0` does not
  cover that case.
- Spawner.GeneratePowerUp: the low-fuel test `fuel < 40` sees exact fuel. At
  nominal 40 fuel (300 moves of 0.2 from 100) the model has exactly 40.0 and may
  spawn an HP or score power-up, while the source's doubles give
  39.99999999999915 and always spawn fuel. The model does not reproduce that
  rounding, here or at any other fuel level.
- Unknown difficulty strings: `set_initial_values` with any other string
  fails on an unbound variable. The model's `Difficulty` has only the three
  levels.
- Power-up views: `generate_powerup` also returns a view object, which is not
  modelled. The HP candidate uses `screen_width + 100` where the others use
  `game_width + 100`. Both widths are 800, so every power-up spawns at x = 900.
- Geometry.Overlaps: the predicate carries no contract of its own. Its
  properties are stated as lemmas (`OverlapsIffCloserThanRadii`,
  `OverlapsSymmetric`, `SeparatedAlongXNoOverlap`, `OverlapsWithinRadii`), so
  that every use of the collision test inside a tick stays a plain comparison.

=== FILE: controller.dfy ===
/** The game controller (the Game class): difficulty presets, the initial
    state, one tick of the main loop, and the loop itself. */
module Controller {
  import opened Geometry
  import opened Objects
  import opened Spaceship
  import opened Effects
  import opened Spawner

  /** Holding this key ends the run. */
  const Quit := "q"
  /** Score added at the end of every tick survived. */
  const SurvivalBonus := 10

  const StartX := 150
  const StartY := 400
  const ShipRadius := 40
  const StartFuel := 100.0

  datatype Difficulty = Easy | Medium | Hard

  /** What a difficulty fixes for the whole run. */
  datatype Preset = Preset(asteroids: nat, hp: int, cost: real)

  /** Each level up adds five asteroids and takes one starting hp; only the
      hardest level makes movement dearer. */
  function PresetOf(d: Difficulty): (r: Preset)
    ensures r.asteroids == 10 + 5 * Level(d)
    ensures r.hp == 5 - Level(d)
    ensures r.cost == if d == Hard then 0.25 else 0.2
  {
    match d
    case Easy => Preset(10, 5, 0.2)
    case Medium => Preset(15, 4, 0.2)
    case Hard => Preset(20, 3, 0.25)
  }

  function Level(d: Difficulty): nat
  {
    match d
    case Easy => 0
    case Medium => 1
    case Hard => 2
  }

  /** A harder level never has fewer asteroids, more starting hp or cheaper
      movement. */
  lemma HarderIsNeverEasier(a: Difficulty, b: Difficulty)
    requires Level(a) <= Level(b)
    ensures PresetOf(a).asteroids <= PresetOf(b).asteroids
    ensures PresetOf(a).hp >= PresetOf(b).hp
    ensures PresetOf(a).cost <= PresetOf(b).cost
  {
  }

  /** The whole simulation state: one ship, a fixed-length row of asteroid
      slots, one power-up slot, and the per-tick fuel cost of the level. */
  datatype Game = Game(ship: Ship, asteroids: seq<Driftable>, powerup: Driftable, cost: real)

  /** `n` steps of the fuel cost, summed one step at a time (fuel is only
      ever changed by adding or subtracting whole steps). */
  function Units(n: nat, cost: real): real
  {
    if n == 0 then 0.0 else Units(n - 1, cost) + cost
  }

  /** The sum of `n` steps is the product. */
  lemma {:induction false} UnitsIsProduct(n: nat, cost: real)
    ensures Units(n, cost) == n as real * cost
  {
    if n > 0 {
      UnitsIsProduct(n - 1, cost);
    }
  }

  /** Fuel is a whole number of cost steps, so it can reach zero exactly. */
  ghost predicate FuelOnGrid(fuel: real, cost: real)
  {
    exists n: nat :: fuel == Units(n, cost)
  }

  /** The ship stays inside the field, hp never exceeds 9, fuel stays a whole
      number of cost steps within [0, 100], and score is never negative. */
  ghost predicate ShipBounds(s: Ship, cost: real)
  {
    && InField(s, GameWidth, GameHeight)
    && s.hp <= MaxHp
    && 0.0 <= s.fuel <= MaxFuel
    && FuelOnGrid(s.fuel, cost)
    && s.score >= 0
  }

  /** What holds of every state the loop can reach. */
  ghost predicate Invariant(g: Game)
  {
    && (g.cost == 0.2 || g.cost == 0.25)
    && ShipBounds(g.ship, g.cost)
    && AllAsteroids(g.asteroids)
    && g.powerup.kind != Asteroid
  }

  predicate ValidDraws(draws: seq<AsteroidDraw>, n: nat)
  {
    |draws| == n && forall i :: 0 <= i < n ==> ValidAsteroidDraw(draws[i])
  }

  /** The start of a run at difficulty `diff`: the ship at (150, 400) with
      radius 40, the level's hp, a full tank and no score; one spawned asteroid
      per slot; one spawned power-up. */
  function SetInitialValues(diff: Difficulty, draws: seq<AsteroidDraw>, pd: PowerUpDraw): (g: Game)
    requires ValidDraws(draws, PresetOf(diff).asteroids)
    requires ValidPowerUpDraw(pd)
    ensures g.ship == Ship(150, 400, 40, PresetOf(diff).hp, 100.0, 0, 10)
    ensures |g.asteroids| == PresetOf(diff).asteroids
    ensures g.cost == PresetOf(diff).cost
    ensures forall i :: 0 <= i < |draws| ==> g.asteroids[i] == GenerateAsteroid(draws[i])
    ensures g.powerup == GeneratePowerUp(g.ship, pd)
    ensures Invariant(g)
  {
    var p := PresetOf(diff);
    var ship := NewShip(StartX, StartY, ShipRadius, p.hp, StartFuel);
    var asteroids := seq(|draws|, i requires 0 <= i < |draws| => GenerateAsteroid(draws[i]));
    var g := Game(ship, asteroids, GeneratePowerUp(ship, pd), p.cost);
    UnitsIsProduct(if p.cost == 0.2 then 500 else 400, p.cost);
    g
  }

  /** Everything a tick reads from outside: the held keys, and the random
      draws for any asteroid slot or power-up it has to refill. */
  datatype TickInput = TickInput(keys: set<string>, asteroidDraws: seq<AsteroidDraw>, powerUpDraw: PowerUpDraw)

  predicate ValidInput(t: TickInput, n: nat)
  {
    ValidDraws(t.asteroidDraws, n) && ValidPowerUpDraw(t.powerUpDraw)
  }

  /** Every input of the sequence is valid for a row of `n` slots, stated
      head first so that it follows the loop's recursion. */
  predicate ValidInputs(ins: seq<TickInput>, n: nat)
  {
    |ins| == 0 || (ValidInput(ins[0], n) && ValidInputs(ins[1..], n))
  }

  lemma {:induction false} ValidInputsEvery(ins: seq<TickInput>, n: nat)
    ensures ValidInputs(ins, n) <==> forall k :: 0 <= k < |ins| ==> ValidInput(ins[k], n)
  {
    if |ins| > 0 {
      ValidInputsEvery(ins[1..], n);
      assert forall k :: 1 <= k < |ins| ==> ins[k] == ins[1..][k - 1];
    }
  }

  /** Step 1 of a tick: the ship moves only while it has fuel. */
  function Steer(g: Game, keys: set<string>): (r: Ship)
    ensures r == g.ship.(x := r.x, y := r.y, fuel := r.fuel)
    ensures r.fuel == if g.ship.fuel > 0.0 && Steering(keys) then g.ship.fuel - g.cost else g.ship.fuel
    ensures g.ship.fuel <= 0.0 ==> r == g.ship
  {
    if g.ship.fuel > 0.0 then Move(g.ship, keys, GameWidth, GameHeight, g.cost) else g.ship
  }

  /** The refill loop: each listed slot, in order, gets the asteroid spawned
      from that slot's draw. */
  function ReplaceAt(row: seq<Driftable>, slots: seq<nat>, draws: seq<AsteroidDraw>): (r: seq<Driftable>)
    requires ValidDraws(draws, |row|)
    requires forall k :: 0 <= k < |slots| ==> slots[k] < |row|
    ensures |r| == |row|
    decreases |slots|
  {
    if |slots| == 0 then row
    else ReplaceAt(row[slots[0] := GenerateAsteroid(draws[slots[0]])], slots[1..], draws)
  }

  /** A listed slot ends up holding its spawned asteroid; every other slot is
      untouched. */
  lemma {:induction false} ReplaceAtSlot(row: seq<Driftable>, slots: seq<nat>, draws: seq<AsteroidDraw>, i: nat)
    requires ValidDraws(draws, |row|)
    requires forall k :: 0 <= k < |slots| ==> slots[k] < |row|
    requires i < |row|
    ensures ReplaceAt(row, slots, draws)[i] == if i in slots then GenerateAsteroid(draws[i]) else row[i]
    decreases |slots|
  {
    if |slots| > 0 {
      var next := row[slots[0] := GenerateAsteroid(draws[slots[0]])];
      ReplaceAtSlot(next, slots[1..], draws, i);
      assert i in slots <==> i == slots[0] || i in slots[1..];
    }
  }

  /** Steps 3 and 4 for the asteroid row: every asteroid drifts, and each
      slot whose asteroid is now off-screen gets a fresh one, in place. */
  function DriftAndRefill(asteroids: seq<Driftable>, draws: seq<AsteroidDraw>): (r: seq<Driftable>)
    requires ValidDraws(draws, |asteroids|)
    ensures |r| == |asteroids|
  {
    var (moved, offscreen) := DriftAll(asteroids);
    ReplaceAt(moved, offscreen, draws)
  }

  /** Slot i holds its asteroid moved by its own velocity, or, when that went
      off-screen, the asteroid spawned from the slot's draw. */
  lemma DriftAndRefillSlot(asteroids: seq<Driftable>, draws: seq<AsteroidDraw>, i: nat)
    requires ValidDraws(draws, |asteroids|) && i < |asteroids|
    ensures DriftAndRefill(asteroids, draws)[i] ==
      if Drift(asteroids[i]).OffScreen() then GenerateAsteroid(draws[i]) else Drift(asteroids[i])
  {
    var (moved, offscreen) := DriftAll(asteroids);
    DriftAllMoves(asteroids);
    ReplaceAtSlot(moved, offscreen, draws, i);
  }

  /** Step 4 for the power-up slot: it drifts, and is replaced when it is
      off-screen afterwards. */
  function DriftOrReplacePowerUp(p: Driftable, s: Ship, pd: PowerUpDraw): (r: Driftable)
    requires ValidPowerUpDraw(pd)
    ensures r == if Drift(p).OffScreen() then GeneratePowerUp(s, pd) else Drift(p)
  {
    var (moved, offscreen) := DriftAll([p]);
    DriftAllMoves([p]);
    assert |offscreen| > 0 ==> offscreen[0] == 0;
    if |offscreen| > 0 then GeneratePowerUp(s, pd) else moved[0]
  }

  /** The steered ship's hitbox overlaps the power-up's. */
  predicate PowerUpHit(g: Game, keys: set<string>)
  {
    Overlaps(Steer(g, keys).Hitbox(), g.powerup.Hitbox())
  }

  /** Steps 1 and 2 of a tick: the ship steers, then tests every asteroid in
      order and then the power-up. The power-up is destroyed exactly when the
      steered ship overlaps it; against a row of asteroids the ship loses one
      hp per hit, and then takes the power-up's effect if it hit that. */
  function Collisions(g: Game, keys: set<string>): (r: (Ship, seq<Driftable>, Driftable))
    ensures var s1 := Steer(g, keys);
      && r.0.x == s1.x && r.0.y == s1.y && r.0.r == g.ship.r && r.0.speed == g.ship.speed
      && r.0.score >= g.ship.score
      && |r.1| == |g.asteroids|
      && r.2 == if PowerUpHit(g, keys) then Destroy(g.powerup) else g.powerup
    ensures AllAsteroids(g.asteroids) ==>
      var s1 := Steer(g, keys);
      var s2 := s1.(hp := s1.hp - Hits(s1.Hitbox(), g.asteroids));
      r.0 == if PowerUpHit(g, keys) then Aftermath(g.powerup.kind, s2) else s2
  {
    var s1 := Steer(g, keys);
    var (s2, hitAsteroids) := CollideAll(s1, g.asteroids);
    var (s3, hitPowerUp) := Collide(s2, g.powerup);
    assert s2.Hitbox() == s1.Hitbox();
    (s3, hitAsteroids, hitPowerUp)
  }

  /** Exactly the asteroids the steered ship overlaps are destroyed. */
  lemma CollisionsDestroyHits(g: Game, keys: set<string>, i: nat)
    requires i < |g.asteroids|
    ensures Collisions(g, keys).1[i] ==
      if Overlaps(Steer(g, keys).Hitbox(), g.asteroids[i].Hitbox()) then Destroy(g.asteroids[i]) else g.asteroids[i]
  {
    CollideAllDestroysHits(Steer(g, keys), g.asteroids);
  }

  /** One tick of the main loop: collisions, then the asteroids drift and the
      slots that went off-screen are refilled, then the power-up drifts or is
      replaced, and finally the survival bonus is added. Slot i keeps its
      asteroid, moved by exactly its own velocity, unless that asteroid was hit
      or drifted off-screen, in which case it holds a fresh one. */
  function Tick(g: Game, t: TickInput): (r: Game)
    requires ValidInput(t, |g.asteroids|)
    ensures |r.asteroids| == |g.asteroids| && r.cost == g.cost
    ensures r.ship.x == Steer(g, t.keys).x && r.ship.y == Steer(g, t.keys).y
    ensures r.ship.r == g.ship.r && r.ship.speed == g.ship.speed
    ensures r.ship.score >= g.ship.score + SurvivalBonus
  {
    var (s, hitAsteroids, hitPowerUp) := Collisions(g, t.keys);
    var asteroids := DriftAndRefill(hitAsteroids, t.asteroidDraws);
    var powerup := DriftOrReplacePowerUp(hitPowerUp, s, t.powerUpDraw);
    Game(s.(score := s.score + SurvivalBonus), asteroids, powerup, g.cost)
  }

  /** The power-up slot after a tick: a power-up that was neither picked up
      nor drifted off-screen moves by exactly its own velocity; otherwise the
      slot holds the power-up spawned from the tick's draw for the ship as the
      collisions left it, which is fuel when the ship ends the tick low on
      fuel. */
  lemma TickPowerUp(g: Game, t: TickInput)
    requires ValidInput(t, |g.asteroids|)
    ensures var r := Tick(g, t);
      PowerUpHit(g, t.keys) || Drift(g.powerup).OffScreen() ==>
        r.powerup.kind != Asteroid && (r.ship.fuel < LowFuel ==> r.powerup.kind == FuelPowerUp)
    ensures !(PowerUpHit(g, t.keys) || Drift(g.powerup).OffScreen()) ==> Tick(g, t).powerup == Drift(g.powerup)
    ensures PowerUpHit(g, t.keys) || Drift(g.powerup).OffScreen() ==>
      Tick(g, t).powerup == GeneratePowerUp(Collisions(g, t.keys).0, t.powerUpDraw)
  {
  }

  /** Asteroids are only ever replaced in place: slot i keeps its asteroid,
      moved by exactly its own velocity, unless the steered ship hit it or it
      drifted off-screen, in which case it holds the asteroid spawned from the
      slot's draw. */
  lemma TickRefillsInPlace(g: Game, t: TickInput, i: nat)
    requires ValidInput(t, |g.asteroids|) && i < |g.asteroids|
    ensures Tick(g, t).asteroids[i] ==
      if Overlaps(Steer(g, t.keys).Hitbox(), g.asteroids[i].Hitbox()) || Drift(g.asteroids[i]).OffScreen()
      then GenerateAsteroid(t.asteroidDraws[i])
      else Drift(g.asteroids[i])
  {
    CollisionsDestroyHits(g, t.keys, i);
    DriftAndRefillSlot(Collisions(g, t.keys).1, t.asteroidDraws, i);
  }

  /** The loop condition: the ship is alive and quit is not held. */
  predicate Continues(g: Game, keys: set<string>)
  {
    g.ship.hp > 0 && Quit !in keys
  }

  /** The state reached from `g` by running the first `k` ticks of `ins`
      unconditionally. */
  function After(g: Game, ins: seq<TickInput>, k: nat): (r: Game)
    requires k <= |ins|
    requires ValidInputs(ins, |g.asteroids|)
    ensures |r.asteroids| == |g.asteroids|
    decreases k
  {
    if k == 0 then g else After(Tick(g, ins[0]), ins[1..], k - 1)
  }

  /** The main loop fed one input per tick: returns the final state and the
      number of ticks run. Every tick that ran started from a state in which
      the loop condition held, the loop stops exactly at the first tick whose
      condition fails (or when the inputs run out), the number of asteroid
      slots never changes, and every tick adds at least the survival bonus. */
  function Run(g: Game, ins: seq<TickInput>): (r: (Game, nat))
    requires ValidInputs(ins, |g.asteroids|)
    ensures r.1 <= |ins|
    ensures r.0 == After(g, ins, r.1)
    ensures forall k :: 0 <= k < r.1 ==> Continues(After(g, ins, k), ins[k].keys)
    ensures |r.0.asteroids| == |g.asteroids|
    // A corollary of the previous clause, kept for readers of the loop guard.
    ensures forall k :: 0 <= k < r.1 ==> Quit !in ins[k].keys
    ensures r.1 < |ins| ==> !Continues(r.0, ins[r.1].keys)
    ensures r.0.ship.score >= g.ship.score + SurvivalBonus * r.1
    decreases |ins|
  {
    if |ins| == 0 || !Continues(g, ins[0].keys) then (g, 0)
    else
      var next := Tick(g, ins[0]);
      var rest := ins[1..];
      var (final, n) := Run(next, rest);
      assert forall k :: 1 <= k <= n ==> After(g, ins, k) == After(next, rest, k - 1);
      (final, n + 1)
  }
}

/** Laws of the game loop: the state invariant, the end of the game, and
    end-to-end scenarios. */
module GameLaws {
  import opened Geometry
  import opened Objects
  import opened Spaceship
  import opened Effects
  import opened Spawner
  import opened Controller

  /** Burning one step of fuel from a positive, on-grid tank leaves a
      non-negative, on-grid tank. */
  lemma {:induction false} BurnStaysOnGrid(fuel: real, cost: real)
    requires cost == 0.2 || cost == 0.25
    requires FuelOnGrid(fuel, cost) && fuel > 0.0
    ensures FuelOnGrid(fuel - cost, cost) && fuel - cost >= 0.0
  {
    var n: nat :| fuel == Units(n, cost);
    assert n >= 1;
    assert fuel - cost == Units(n - 1, cost);
    UnitsIsProduct(n - 1, cost);
  }

  /** A fuel power-up keeps the tank on the grid: both the bonus and the cap
      are whole numbers of cost steps. */
  lemma {:induction false} RefuelStaysOnGrid(fuel: real, cost: real)
    requires cost == 0.2 || cost == 0.25
    requires FuelOnGrid(fuel, cost)
    ensures FuelOnGrid(MinReal(fuel + FuelBonus, MaxFuel), cost)
  {
    var n: nat :| fuel == Units(n, cost);
    var bonus: nat := if cost == 0.2 then 100 else 80;
    var full: nat := if cost == 0.2 then 500 else 400;
    UnitsIsProduct(n, cost);
    UnitsIsProduct(n + bonus, cost);
    UnitsIsProduct(full, cost);
    if fuel + FuelBonus <= MaxFuel {
      assert fuel + FuelBonus == Units(n + bonus, cost);
    } else {
      assert MaxFuel == Units(full, cost);
    }
  }

  /** The ship after a tick is the ship after the collisions, plus the
      survival bonus. */
  lemma TickShip(g: Game, t: TickInput)
    requires ValidInput(t, |g.asteroids|)
    ensures Tick(g, t).ship == Collisions(g, t.keys).0.(score := Collisions(g, t.keys).0.score + SurvivalBonus)
  {
  }

  /** Steering keeps the ship bounds. */
  lemma {:induction false} SteerKeepsShipBounds(g: Game, keys: set<string>)
    requires Invariant(g)
    ensures ShipBounds(Steer(g, keys), g.cost)
  {
    if g.ship.fuel > 0.0 {
      MoveStaysInField(g.ship, keys, GameWidth, GameHeight, g.cost);
      if Steering(keys) {
        BurnStaysOnGrid(g.ship.fuel, g.cost);
      }
    }
  }

  /** Collisions keep the ship bounds: asteroids only lower hp, and the
      power-up effects are capped. */
  lemma {:induction false} CollisionsKeepShipBounds(g: Game, keys: set<string>)
    requires Invariant(g)
    ensures ShipBounds(Collisions(g, keys).0, g.cost)
  {
    SteerKeepsShipBounds(g, keys);
    var s1 := Steer(g, keys);
    var s2 := s1.(hp := s1.hp - Hits(s1.Hitbox(), g.asteroids));
    assert ShipBounds(s2, g.cost);
    if PowerUpHit(g, keys) && g.powerup.kind == FuelPowerUp {
      RefuelStaysOnGrid(s2.fuel, g.cost);
    }
  }

  /** After a tick the asteroid slots hold asteroids and the power-up slot a
      power-up. */
  lemma {:induction false} TickKeepsKinds(g: Game, t: TickInput)
    requires ValidInput(t, |g.asteroids|)
    requires AllAsteroids(g.asteroids) && g.powerup.kind != Asteroid
    ensures AllAsteroids(Tick(g, t).asteroids) && Tick(g, t).powerup.kind != Asteroid
  {
    var r := Tick(g, t);
    forall i | 0 <= i < |r.asteroids|
      ensures r.asteroids[i].kind == Asteroid
    {
      TickRefillsInPlace(g, t, i);
    }
  }

  /** The survival bonus touches nothing the ship bounds constrain but the
      score, which it raises. */
  lemma {:induction false} BonusKeepsShipBounds(s: Ship, cost: real)
    requires ShipBounds(s, cost)
    ensures ShipBounds(s.(score := s.score + SurvivalBonus), cost)
  {
    var n: nat :| s.fuel == Units(n, cost);
    assert s.(score := s.score + SurvivalBonus).fuel == Units(n, cost);
  }

  /** Every tick keeps the invariant: the ship stays inside the field, hp never
      exceeds 9, fuel stays within [0, 100], score stays non-negative, and the
      asteroid and power-up slots hold objects of the right kinds. */
  lemma {:induction false} TickPreservesInvariant(g: Game, t: TickInput)
    requires Invariant(g) && ValidInput(t, |g.asteroids|)
    ensures Invariant(Tick(g, t))
  {
    CollisionsKeepShipBounds(g, t.keys);
    TickShip(g, t);
    BonusKeepsShipBounds(Collisions(g, t.keys).0, g.cost);
    TickKeepsKinds(g, t);
  }

  /** The invariant holds of every state the loop reaches. */
  lemma {:induction false} RunPreservesInvariant(g: Game, ins: seq<TickInput>)
    requires Invariant(g)
    requires ValidInputs(ins, |g.asteroids|)
    ensures Invariant(Run(g, ins).0)
    decreases |ins|
  {
    if |ins| > 0 && Continues(g, ins[0].keys) {
      TickPreservesInvariant(g, ins[0]);
      RunPreservesInvariant(Tick(g, ins[0]), ins[1..]);
    }
  }

  /** Once hp is down to zero no further tick runs, whatever the input. */
  lemma GameOverIsFinal(g: Game, ins: seq<TickInput>)
    requires g.ship.hp <= 0
    requires ValidInputs(ins, |g.asteroids|)
    ensures Run(g, ins) == (g, 0)
  {
  }

  /** The score after a tick: the survival bonus, plus the score power-up's
      bonus when the ship picked it up. Asteroids never change the score. */
  lemma {:induction false} TickScore(g: Game, t: TickInput)
    requires ValidInput(t, |g.asteroids|) && AllAsteroids(g.asteroids)
    ensures Tick(g, t).ship.score == g.ship.score + SurvivalBonus
      + (if PowerUpHit(g, t.keys) && g.powerup.kind == ScorePowerUp then ScoreBonus else 0)
  {
    TickShip(g, t);
  }

  /** Without a net steering intent (no movement key, or only opposite pairs)
      the ship keeps its place, and its fuel unless it picked up fuel. */
  lemma {:induction false} IdleTickKeepsShip(g: Game, t: TickInput)
    requires ValidInput(t, |g.asteroids|) && AllAsteroids(g.asteroids)
    requires !Steering(t.keys)
    ensures Tick(g, t).ship.x == g.ship.x && Tick(g, t).ship.y == g.ship.y
    ensures !(PowerUpHit(g, t.keys) && g.powerup.kind == FuelPowerUp) ==> Tick(g, t).ship.fuel == g.ship.fuel
  {
    TickShip(g, t);
  }

  /** A tick in which the ship does not steer, hits nothing, and nothing
      leaves the screen only adds the survival bonus and moves every object by
      exactly its own velocity. */
  lemma {:induction false} QuietTick(g: Game, t: TickInput)
    requires ValidInput(t, |g.asteroids|) && AllAsteroids(g.asteroids) && !Steering(t.keys)
    requires forall i :: 0 <= i < |g.asteroids| ==>
      !Overlaps(g.ship.Hitbox(), g.asteroids[i].Hitbox()) && !Drift(g.asteroids[i]).OffScreen()
    requires !Overlaps(g.ship.Hitbox(), g.powerup.Hitbox()) && !Drift(g.powerup).OffScreen()
    ensures Tick(g, t).ship == g.ship.(score := g.ship.score + SurvivalBonus)
    ensures forall i :: 0 <= i < |g.asteroids| ==> Tick(g, t).asteroids[i] == Drift(g.asteroids[i])
    ensures Tick(g, t).powerup == Drift(g.powerup)
  {
    assert Steer(g, t.keys) == g.ship;
    forall i | 0 <= i < |g.asteroids|
      ensures Tick(g, t).asteroids[i] == Drift(g.asteroids[i])
    {
      TickRefillsInPlace(g, t, i);
    }
    HitsCountsOverlaps(g.ship.Hitbox(), g.asteroids);
    TickShip(g, t);
  }

  /** The first tick of a run with no steering: the ship stays at (150, 400)
      with a full tank and its starting hp, the score is 10, and every asteroid
      and the power-up have moved by exactly their own velocity: nothing spawned
      on the right can reach the ship or leave the screen in one tick. */
  lemma {:induction false} OpeningTickWithoutKeys(diff: Difficulty, draws: seq<AsteroidDraw>, pd: PowerUpDraw, t: TickInput)
    requires ValidDraws(draws, PresetOf(diff).asteroids) && ValidPowerUpDraw(pd)
    requires ValidInput(t, PresetOf(diff).asteroids) && !Steering(t.keys)
    ensures var g := SetInitialValues(diff, draws, pd);
      var r := Tick(g, t);
      && r.ship == Ship(150, 400, 40, PresetOf(diff).hp, 100.0, 10, 10)
      && (forall i :: 0 <= i < |g.asteroids| ==> r.asteroids[i] == Drift(g.asteroids[i]))
      && r.powerup == Drift(g.powerup)
  {
    var g := SetInitialValues(diff, draws, pd);
    forall i | 0 <= i < |g.asteroids|
      ensures !Overlaps(g.ship.Hitbox(), g.asteroids[i].Hitbox()) && !Drift(g.asteroids[i]).OffScreen()
    {
      SeparatedAlongXNoOverlap(g.ship.Hitbox(), g.asteroids[i].Hitbox());
    }
    SeparatedAlongXNoOverlap(g.ship.Hitbox(), g.powerup.Hitbox());
    QuietTick(g, t);
  }

  /** Unless the ship picks up an HP power-up, a tick costs exactly one hp
      per asteroid the steered ship overlaps. */
  lemma TickLosesHpPerHit(g: Game, t: TickInput)
    requires ValidInput(t, |g.asteroids|) && AllAsteroids(g.asteroids) && g.powerup.kind != Asteroid
    requires !(PowerUpHit(g, t.keys) && g.powerup.kind == HpPowerUp)
    ensures Tick(g, t).ship.hp == g.ship.hp - Hits(Steer(g, t.keys).Hitbox(), g.asteroids)
  {
    assert Steer(g, t.keys).hp == g.ship.hp;
    TickShip(g, t);
  }

  /** A ship on its last hp point that hits an asteroid, and does not pick up
      an HP power-up in the same tick, ends the game: no further tick runs. */
  lemma {:induction false} LastHpLostEndsGame(g: Game, t: TickInput, i: nat, ins: seq<TickInput>)
    requires ValidInput(t, |g.asteroids|) && AllAsteroids(g.asteroids)
    requires g.ship.hp == 1
    requires i < |g.asteroids| && Overlaps(Steer(g, t.keys).Hitbox(), g.asteroids[i].Hitbox())
    requires !(PowerUpHit(g, t.keys) && g.powerup.kind == HpPowerUp)
    requires ValidInputs(ins, |g.asteroids|)
    ensures Tick(g, t).ship.hp <= 0
    ensures Run(Tick(g, t), ins) == (Tick(g, t), 0)
  {
    HitsCountsOverlaps(Steer(g, t.keys).Hitbox(), g.asteroids);
    TickShip(g, t);
  }

  /** A ship on its last hp point with an empty tank at the start position,
      the easy level's ten asteroid slots of which two hold asteroids that have
      just drifted into its hitbox and eight hold asteroids far to the right,
      and a fuel power-up far to the right. The score of 5000 is what 500
      survived ticks earn, enough for 500 moves at cost 0.2 to have emptied a
      full tank. */
  function TwoRocksOnLastHp(): Game
  {
    var ship := Ship(150, 400, 40, 1, 0.0, 5000, 10);
    var rock := Driftable(Asteroid, Finite(205), 400, 20, -6, 0);
    var far := FarRock();
    Game(ship, [rock, rock, far, far, far, far, far, far, far, far],
         Driftable(FuelPowerUp, Finite(900), 400, 36, -4, 0), 0.2)
  }

  /** An asteroid just spawned at the far end of the spawn range. */
  function FarRock(): Driftable
  {
    Driftable(Asteroid, Finite(1600), 400, 20, -4, 0)
  }

  /** The example's asteroids were clear of the ship one tick earlier: they
      reached it by their own drift rather than by being spawned on it. */
  lemma TwoRocksJustArrived()
    ensures var g := TwoRocksOnLastHp();
      var earlier := g.asteroids[0].(x := Finite(211));
      && Drift(earlier) == g.asteroids[0] == g.asteroids[1]
      && !Overlaps(g.ship.Hitbox(), earlier.Hitbox())
  {
    var g := TwoRocksOnLastHp();
    SeparatedAlongXNoOverlap(g.ship.Hitbox(), g.asteroids[0].(x := Finite(211)).Hitbox());
  }

  /** The example state satisfies the invariant. */
  lemma TwoRocksInvariant()
    ensures Invariant(TwoRocksOnLastHp()) && TwoRocksOnLastHp().ship.hp == 1
  {
    var g := TwoRocksOnLastHp();
    assert g.ship.fuel == Units(0, g.cost);
  }

  /** Wherever the keys would steer, the empty tank keeps the example ship on
      both asteroids and away from the power-up. */
  lemma TwoRocksCollide(keys: set<string>)
    ensures Steer(TwoRocksOnLastHp(), keys) == TwoRocksOnLastHp().ship
    ensures Hits(TwoRocksOnLastHp().ship.Hitbox(), TwoRocksOnLastHp().asteroids) == 2
    ensures !PowerUpHit(TwoRocksOnLastHp(), keys)
  {
    var g := TwoRocksOnLastHp();
    var c := g.ship.Hitbox();
    var rock := g.asteroids[0];
    SeparatedAlongXNoOverlap(c, g.powerup.Hitbox());
    SqMonotone(55, 59);
    assert Sq(55) < Sq(60);
    assert Overlaps(c, rock.Hitbox());
    var rest := g.asteroids[2..];
    SeparatedAlongXNoOverlap(c, FarRock().Hitbox());
    assert forall i :: 0 <= i < |rest| ==> rest[i] == FarRock();
    HitsCountsOverlaps(c, rest);
    assert g.asteroids[1..][1..] == rest;
    assert Hits(c, g.asteroids[1..]) == 1 + Hits(c, rest);
  }

  /** hp has no lower clamp: from a state satisfying the invariant, a ship on
      its last point that hits two asteroids in one tick ends at -1, whatever
      the keys and draws of that tick. */
  lemma HpCanGoNegative(t: TickInput)
    requires ValidInput(t, 10)
    ensures Invariant(TwoRocksOnLastHp()) && TwoRocksOnLastHp().ship.hp == 1
    ensures Tick(TwoRocksOnLastHp(), t).ship.hp == -1
  {
    TwoRocksInvariant();
    TwoRocksCollide(t.keys);
    TickLosesHpPerHit(TwoRocksOnLastHp(), t);
  }
}

=== FILE: effects.dfy ===
/** Collision effects (the four `aftermath` methods) and the ship-versus-object
    collision step (`collided`). */
module Effects {
  import opened Geometry
  import opened Objects
  import opened Spaceship

  const MaxHp := 9
  const MaxFuel := 100.0
  const FuelBonus := 20.0
  const ScoreBonus := 5000

  /** The effect an object of kind `k` has on the ship that hit it. Each kind
      changes exactly one ship field. */
  function Aftermath(k: Kind, s: Ship): (r: Ship)
    ensures k == Asteroid ==> r == s.(hp := s.hp - 1)
    ensures k == HpPowerUp ==> r == s.(hp := r.hp)
    ensures k == HpPowerUp ==> r.hp <= MaxHp
    ensures k == HpPowerUp && s.hp < MaxHp ==> r.hp == s.hp + 1
    ensures k == HpPowerUp && s.hp >= MaxHp ==> r.hp == MaxHp
    ensures k == FuelPowerUp ==> r == s.(fuel := r.fuel)
    ensures k == FuelPowerUp ==> r.fuel <= MaxFuel
    ensures k == FuelPowerUp && s.fuel + FuelBonus <= MaxFuel ==> r.fuel == s.fuel + FuelBonus
    ensures k == FuelPowerUp && s.fuel + FuelBonus > MaxFuel ==> r.fuel == MaxFuel
    ensures k == ScorePowerUp ==> r == s.(score := s.score + ScoreBonus)
  {
    match k
    case Asteroid => s.(hp := s.hp - 1)
    case HpPowerUp => s.(hp := Min(s.hp + 1, MaxHp))
    case FuelPowerUp => s.(fuel := MinReal(s.fuel + FuelBonus, MaxFuel))
    case ScorePowerUp => s.(score := s.score + ScoreBonus)
  }

  function Min(a: int, b: int): int
  {
    if a <= b then a else b
  }

  function MinReal(a: real, b: real): real
  {
    if a <= b then a else b
  }

  /** The ship tests one object: on overlap the object's effect is applied and
      the object is destroyed; otherwise nothing changes. */
  function Collide(s: Ship, d: Driftable): (r: (Ship, Driftable))
    ensures r.1 != d <==> Overlaps(s.Hitbox(), d.Hitbox())
    ensures r.1 != d ==> r == (Aftermath(d.kind, s), Destroy(d))
    ensures r.1 == d ==> r.0 == s
  {
    if Overlaps(s.Hitbox(), d.Hitbox()) then (Aftermath(d.kind, s), Destroy(d))
    else (s, d)
  }

  /** A collision never moves the ship, and an object that has been hit once is
      inert: testing it again changes nothing. */
  lemma {:induction false} CollideIsIdempotent(s: Ship, d: Driftable)
    ensures Collide(s, d).0.Hitbox() == s.Hitbox()
    ensures Collide(Collide(s, d).0, Collide(s, d).1) == Collide(s, d)
  {
    var (s1, d1) := Collide(s, d);
    if Overlaps(s.Hitbox(), d.Hitbox()) {
      assert d1.x == NegInf;
      assert !Overlaps(s1.Hitbox(), d1.Hitbox());
    }
  }

  /** Number of objects in `ds` whose hitbox overlaps `c`. */
  function Hits(c: Circle, ds: seq<Driftable>): nat
  {
    if |ds| == 0 then 0
    else (if Overlaps(c, ds[0].Hitbox()) then 1 else 0) + Hits(c, ds[1..])
  }

  /** Hits counts at most one hit per object, and is zero exactly when no
      object overlaps. */
  lemma {:induction false} HitsCountsOverlaps(c: Circle, ds: seq<Driftable>)
    ensures Hits(c, ds) <= |ds|
    ensures Hits(c, ds) == 0 <==> forall i :: 0 <= i < |ds| ==> !Overlaps(c, ds[i].Hitbox())
  {
    if |ds| > 0 {
      HitsCountsOverlaps(c, ds[1..]);
      assert forall i :: 1 <= i < |ds| ==> ds[i] == ds[1..][i - 1];
    }
  }

  predicate AllAsteroids(ds: seq<Driftable>)
  {
    forall i :: 0 <= i < |ds| ==> ds[i].kind == Asteroid
  }

  /** The ship tests every object in order. The ship never moves, its score
      never drops, and against asteroids only it loses one hp per hit. */
  function CollideAll(s: Ship, ds: seq<Driftable>): (r: (Ship, seq<Driftable>))
    ensures |r.1| == |ds|
    ensures r.0.x == s.x && r.0.y == s.y && r.0.r == s.r && r.0.speed == s.speed
    ensures r.0.score >= s.score
    ensures AllAsteroids(ds) ==> r.0 == s.(hp := s.hp - Hits(s.Hitbox(), ds))
    decreases |ds|
  {
    if |ds| == 0 then (s, [])
    else
      var (s1, d1) := Collide(s, ds[0]);
      var (s2, rest) := CollideAll(s1, ds[1..]);
      assert s1.Hitbox() == s.Hitbox();
      (s2, [d1] + rest)
  }

  /** Each object is destroyed exactly when its hitbox overlaps the ship's;
      the others are left as they were. */
  lemma {:induction false} CollideAllDestroysHits(s: Ship, ds: seq<Driftable>)
    ensures forall i :: 0 <= i < |ds| ==>
      CollideAll(s, ds).1[i] == if Overlaps(s.Hitbox(), ds[i].Hitbox()) then Destroy(ds[i]) else ds[i]
    decreases |ds|
  {
    if |ds| > 0 {
      var s1 := Collide(s, ds[0]).0;
      CollideAllDestroysHits(s1, ds[1..]);
      assert s1.Hitbox() == s.Hitbox();
    }
  }
}

=== FILE: geometry.dfy ===
/** Positions, hitboxes and the circle-overlap test shared by every object of
    the game (the Collidable base class). */
module Geometry {

  /** An x-coordinate: a finite integer, or the negative-infinity sentinel a
      destroyed object is moved to so that it is recycled with the objects that
      scrolled off the left edge. */
  datatype Coord = Finite(v: int) | NegInf

  /** Adds an integer offset; negative infinity absorbs every offset. */
  function Shift(c: Coord, d: int): Coord
  {
    match c
    case Finite(v) => Finite(v + d)
    case NegInf => NegInf
  }

  /** `c + r < 0`: the object lies entirely past the left edge. */
  predicate PastLeftEdge(c: Coord, r: int)
  {
    match c
    case Finite(v) => v + r < 0
    case NegInf => true
  }

  /** A circular hitbox. */
  datatype Circle = Circle(x: Coord, y: int, r: int)

  /** `n * n`, built from sums so that the collision test stays linear for the
      solver wherever it is not the subject of the proof. */
  function Sq(n: nat): nat
  {
    if n == 0 then 0 else Sq(n - 1) + 2 * n - 1
  }

  lemma {:induction false} SqIsProduct(n: nat)
    ensures Sq(n) == n * n
  {
    if n > 0 {
      SqIsProduct(n - 1);
    }
  }

  function Abs(x: int): nat
  {
    if x < 0 then -x else x
  }

  /** Squared Euclidean distance between two finite centres. */
  function SqDist(x1: int, y1: int, x2: int, y2: int): nat
  {
    Sq(Abs(x1 - x2)) + Sq(Abs(y1 - y2))
  }

  /** The collision test: the centre distance is strictly below the sum of the
      radii. A centre at negative infinity is infinitely far from everything, so
      a destroyed object never overlaps anything. The square root of the source
      is replaced by a comparison of squares, valid because both sides are
      non-negative whenever the test can succeed. */
  predicate Overlaps(a: Circle, b: Circle)
  {
    && a.x.Finite?
    && b.x.Finite?
    && a.r + b.r > 0
    && SqDist(a.x.v, a.y, b.x.v, b.y) < Sq(a.r + b.r)
  }

  /** Overlapping circles are closer than the sum of their radii along each
      axis separately. */
  lemma OverlapsWithinRadii(a: Circle, b: Circle)
    requires Overlaps(a, b)
    ensures Abs(a.x.v - b.x.v) < a.r + b.r && Abs(a.y - b.y) < a.r + b.r
  {
    SqOrderReflected(Abs(a.x.v - b.x.v), a.r + b.r);
    SqOrderReflected(Abs(a.y - b.y), a.r + b.r);
  }

  /** Overlaps agrees with the source's test on the real distance `d`: for any
      non-negative `d` whose square is the squared centre distance, the circles
      overlap exactly when `d < a.r + b.r`. In particular circles whose centres
      are exactly `a.r + b.r` apart only touch and do not collide. */
  lemma {:induction false} OverlapsIffCloserThanRadii(a: Circle, b: Circle, d: real)
    requires a.x.Finite? && b.x.Finite?
    requires 0.0 <= d && d * d == SqDist(a.x.v, a.y, b.x.v, b.y) as real
    ensures Overlaps(a, b) <==> d < (a.r + b.r) as real
  {
    var s := a.r + b.r;
    if s > 0 {
      var sr := s as real;
      SqIsProduct(s);
      SquaresOrdered(d, sr);
      assert Sq(s) as real == sr * sr;
    }
  }

  /** For non-negative reals, comparing squares is comparing the values. */
  lemma SquaresOrdered(x: real, y: real)
    requires 0.0 <= x && 0.0 <= y
    ensures x < y <==> x * x < y * y
  {
    var xx, xy, yy := x * x, x * y, y * y;
    if x < y {
      assert xx <= xy < yy;
    } else {
      assert xx >= xy >= yy;
    }
  }

  /** Collision is symmetric in the two objects. */
  lemma OverlapsSymmetric(a: Circle, b: Circle)
    ensures Overlaps(a, b) <==> Overlaps(b, a)
  {
    if a.x.Finite? && b.x.Finite? {
      assert Abs(a.x.v - b.x.v) == Abs(b.x.v - a.x.v);
      assert Abs(a.y - b.y) == Abs(b.y - a.y);
    }
  }

  /** Circles whose centres are at least the sum of the radii apart along the
      x-axis alone do not collide, whatever their rows. */
  lemma {:induction false} SeparatedAlongXNoOverlap(a: Circle, b: Circle)
    requires a.x.Finite? && b.x.Finite?
    requires a.x.v + a.r + b.r <= b.x.v
    ensures !Overlaps(a, b)
  {
    var s := a.r + b.r;
    if s > 0 {
      assert Abs(a.x.v - b.x.v) >= s;
      SqMonotone(s, Abs(a.x.v - b.x.v));
    }
  }

  /** A smaller square has a smaller root. */
  lemma SqOrderReflected(m: nat, n: nat)
    ensures Sq(m) < Sq(n) ==> m < n
  {
    if n <= m {
      SqMonotone(n, m);
    }
  }

  /** Squaring is monotone on the naturals. */
  lemma {:induction false} SqMonotone(m: nat, n: nat)
    requires m <= n
    ensures Sq(m) <= Sq(n)
    decreases n - m
  {
    if m < n {
      SqMonotone(m, n - 1);
    }
  }
}

=== FILE: leaderboard.dfy ===
/** The pure ranking step of a leaderboard update: append the new entry, sort
    by (score descending, timestamp ascending, username ascending), and drop
    the last entry. Timestamps are integers; storage is not modelled. */
module Leaderboard {

  datatype Entry = Entry(username: string, score: int, timestamp: int)

  /** String `<` as Python compares `str`: lexicographic by character, a proper
      prefix first. */
  predicate StrLess(a: string, b: string)
    decreases |a|
  {
    |b| > 0 && (|a| == 0 || a[0] < b[0] || (a[0] == b[0] && StrLess(a[1..], b[1..])))
  }

  /** `a` sorts strictly before `b` under the key (-score, timestamp, username). */
  predicate Before(a: Entry, b: Entry)
  {
    || a.score > b.score
    || (a.score == b.score && a.timestamp < b.timestamp)
    || (a.score == b.score && a.timestamp == b.timestamp && StrLess(a.username, b.username))
  }

  /** `a` may stand ahead of `b` in a ranked board. */
  predicate NotAfter(a: Entry, b: Entry)
  {
    !Before(b, a)
  }

  predicate Ranked(s: seq<Entry>)
  {
    forall i, j :: 0 <= i < j < |s| ==> NotAfter(s[i], s[j])
  }

  lemma {:induction false} StrLessIrreflexive(a: string)
    ensures !StrLess(a, a)
    decreases |a|
  {
    if |a| > 0 {
      StrLessIrreflexive(a[1..]);
    }
  }

  lemma {:induction false} StrLessTransitive(a: string, b: string, c: string)
    requires StrLess(a, b) && StrLess(b, c)
    ensures StrLess(a, c)
    decreases |a|
  {
    if |a| > 0 && a[0] == b[0] && b[0] == c[0] {
      StrLessTransitive(a[1..], b[1..], c[1..]);
    }
  }

  /** Distinct strings are always comparable. */
  lemma {:induction false} StrLessTotal(a: string, b: string)
    requires a != b
    ensures StrLess(a, b) || StrLess(b, a)
    decreases |a|
  {
    if |a| > 0 && |b| > 0 && a[0] == b[0] {
      assert a == [a[0]] + a[1..] && b == [b[0]] + b[1..];
      StrLessTotal(a[1..], b[1..]);
    }
  }

  /** The ranking key orders entries strictly and totally: since the key is the
      whole entry, no two distinct entries tie. */
  lemma BeforeIsStrictTotalOrder(a: Entry, b: Entry, c: Entry)
    ensures !Before(a, a)
    ensures Before(a, b) ==> !Before(b, a)
    ensures Before(a, b) && Before(b, c) ==> Before(a, c)
    ensures a != b ==> Before(a, b) || Before(b, a)
  {
    StrLessIrreflexive(a.username);
    if Before(a, b) && Before(b, a) {
      StrLessTransitive(a.username, b.username, a.username);
    }
    if Before(a, b) && Before(b, c) && a.score == b.score == c.score && a.timestamp == b.timestamp == c.timestamp {
      StrLessTransitive(a.username, b.username, c.username);
    }
    if a != b && a.score == b.score && a.timestamp == b.timestamp {
      StrLessTotal(a.username, b.username);
    }
  }

  lemma NotAfterTransitive(a: Entry, b: Entry, c: Entry)
    requires NotAfter(a, b) && NotAfter(b, c)
    ensures NotAfter(a, c)
  {
    BeforeIsStrictTotalOrder(a, b, c);
    BeforeIsStrictTotalOrder(c, a, b);
    BeforeIsStrictTotalOrder(b, c, a);
  }

  /** Puts `e` into a ranked board at its place. */
  function Insert(e: Entry, s: seq<Entry>): (r: seq<Entry>)
    requires Ranked(s)
    ensures Ranked(r)
    ensures multiset(r) == multiset(s) + multiset{e}
  {
    if |s| == 0 then [e]
    else if NotAfter(e, s[0]) then
      LeadRanked(e, s);
      [e] + s
    else
      BeforeIsStrictTotalOrder(s[0], e, e);
      assert s == [s[0]] + s[1..];
      var rest := Insert(e, s[1..]);
      HeadLeads(s[0], s[1..], e, rest);
      [s[0]] + rest
  }

  /** A ranked board stays ranked below a new head that is not after its
      first entry. */
  lemma LeadRanked(h: Entry, s: seq<Entry>)
    requires Ranked(s) && |s| > 0 && NotAfter(h, s[0])
    ensures Ranked([h] + s)
  {
    forall j | 0 < j < |s|
      ensures NotAfter(h, s[j])
    {
      NotAfterTransitive(h, s[0], s[j]);
    }
  }

  /** A head that leads a ranked board and is not after `e` leads any
      rearrangement of the board plus `e`. */
  lemma HeadLeads(h: Entry, s: seq<Entry>, e: Entry, t: seq<Entry>)
    requires Ranked([h] + s) && NotAfter(h, e) && Ranked(t)
    requires multiset(t) == multiset(s) + multiset{e}
    ensures Ranked([h] + t)
  {
    forall x | x in t
      ensures NotAfter(h, x)
    {
      assert x in multiset(t);
      if x != e {
        assert x in multiset(s);
        var k :| 0 <= k < |s| && s[k] == x;
        assert ([h] + s)[0] == h && ([h] + s)[k + 1] == x;
      }
    }
    LeadRankedAll(h, t);
  }

  /** A ranked board stays ranked below a new head that is not after any of
      its entries. */
  lemma LeadRankedAll(h: Entry, s: seq<Entry>)
    requires Ranked(s) && forall x :: x in s ==> NotAfter(h, x)
    ensures Ranked([h] + s)
  {
    var t := [h] + s;
    forall i, j | 0 <= i < j < |t|
      ensures NotAfter(t[i], t[j])
    {
      if i > 0 {
        assert t[i] == s[i - 1] && t[j] == s[j - 1];
      } else {
        assert t[j] in s;
      }
    }
  }

  /** Sorts by the ranking key (insertion sort): the result is ranked and a
      permutation of the input. */
  function Sort(s: seq<Entry>): (r: seq<Entry>)
    ensures Ranked(r)
    ensures multiset(r) == multiset(s)
  {
    if |s| == 0 then []
    else
      assert s == [s[0]] + s[1..];
      Insert(s[0], Sort(s[1..]))
  }

  /** The ranking step of an update: the board with `e` appended, sorted, with
      the last entry popped. Returns the kept board and the popped entry. The
      kept board is as long as the old one and ranked; together with the popped
      entry it is exactly the old board plus `e`; and the popped entry is a
      worst one: every kept entry may stand ahead of it. */
  function Rank(board: seq<Entry>, e: Entry): (r: (seq<Entry>, Entry))
    ensures |r.0| == |board|
    ensures Ranked(r.0)
    ensures multiset(r.0) + multiset{r.1} == multiset(board) + multiset{e}
    ensures forall x :: x in r.0 ==> NotAfter(x, r.1)
  {
    var all := Sort(board + [e]);
    assert |all| == |board| + 1 by {
      assert |multiset(all)| == |multiset(board + [e])|;
    }
    PopLast(all);
    (all[..|board|], all[|board|])
  }

  /** Popping the last entry of a ranked board leaves a ranked board, every
      entry of which may stand ahead of the popped one; together they are the
      whole board. */
  lemma PopLast(s: seq<Entry>)
    requires Ranked(s) && |s| > 0
    ensures Ranked(s[..|s| - 1])
    ensures forall k :: 0 <= k < |s| - 1 ==> NotAfter(s[k], s[|s| - 1])
    ensures multiset(s) == multiset(s[..|s| - 1]) + multiset{s[|s| - 1]}
  {
    assert s == s[..|s| - 1] + [s[|s| - 1]];
  }

  /** An old entry that does not rank ahead of the new one keeps the new
      entry on the board. */
  lemma {:induction false} NewEntryKeptWhenBeatable(board: seq<Entry>, e: Entry, x: Entry)
    requires x in board && NotAfter(e, x)
    ensures e in Rank(board, e).0
  {
    var (kept, dropped) := Rank(board, e);
    var all := multiset(board) + multiset{e};
    assert multiset(kept) + multiset{dropped} == all;
    BeforeIsStrictTotalOrder(x, e, e);
    // Were e popped, x would be kept although it ranks strictly ahead of e.
    assert all[e] == multiset(board)[e] + 1;
    assert e !in kept ==> multiset(kept)[e] == 0;
    assert e !in kept ==> multiset{dropped}[e] == all[e];
    assert e !in kept ==> dropped == e && multiset(board)[e] == 0;
    assert e !in kept ==> x != e;
    assert e !in kept ==> all[x] == multiset(kept)[x];
    assert e !in kept ==> x in kept;
  }

  /** A new entry that ranks strictly behind every old one is the entry the
      update pops, and it does not stay on the board. */
  lemma {:induction false} NewEntryDroppedWhenWorst(board: seq<Entry>, e: Entry)
    requires forall x :: x in board ==> Before(x, e)
    ensures Rank(board, e).1 == e && e !in Rank(board, e).0
  {
    var (kept, dropped) := Rank(board, e);
    var all := multiset(board) + multiset{e};
    assert multiset(kept) + multiset{dropped} == all;
    BeforeIsStrictTotalOrder(e, e, e);
    assert e !in board;
    assert all[e] == multiset(board)[e] + 1 == 1;
    // An old entry ranks ahead of e, so popping it would have kept e.
    assert dropped in multiset(kept) + multiset{dropped};
    assert dropped in all;
    assert dropped != e ==> dropped in multiset(board);
    assert dropped != e ==> dropped in board;
    assert dropped in board ==> !NotAfter(e, dropped) && e !in kept;
    // With e not kept, its only copy is the popped one.
    assert e !in kept ==> multiset{dropped}[e] == 1;
    assert dropped == e;
    assert multiset(kept)[e] == 0;
  }

  /** The new entry survives the update exactly when some entry of the old
      board does not rank ahead of it, i.e. when it is not strictly the worst
      of the combined entries. */
  lemma NewEntryKeptIff(board: seq<Entry>, e: Entry)
    ensures e in Rank(board, e).0 <==> exists x :: x in board && NotAfter(e, x)
  {
    if x :| x in board && NotAfter(e, x) {
      NewEntryKeptWhenBeatable(board, e, x);
    } else {
      NewEntryDroppedWhenWorst(board, e);
    }
  }
}

=== FILE: objects.dfy ===
/** Drifting objects (the Driftable class and its four kinds): constant-velocity
    movement, destruction and off-screen detection. */
module Objects {
  import opened Geometry

  /** The concrete Driftable subclasses; the kind selects the collision effect. */
  datatype Kind = Asteroid | HpPowerUp | FuelPowerUp | ScorePowerUp

  /** An object that moves by (dx, dy) every tick and can collide with the ship. */
  datatype Driftable = Driftable(kind: Kind, x: Coord, y: int, r: int, dx: int, dy: int)
  {
    function Hitbox(): Circle
    {
      Circle(x, y, r)
    }

    /** Fully past the left edge, or destroyed. */
    predicate OffScreen()
    {
      PastLeftEdge(x, r)
    }
  }

  /** Marks an object consumed by moving it to negative infinity. */
  function Destroy(d: Driftable): (r: Driftable)
    ensures r.x == NegInf && r.OffScreen()
    ensures r.(x := d.x) == d
  {
    d.(x := NegInf)
  }

  /** One tick of constant-velocity movement. */
  function Drift(d: Driftable): (r: Driftable)
    ensures r.(x := d.x, y := d.y) == d
    ensures r.y - d.y == d.dy
    ensures d.x.Finite? <==> r.x.Finite?
    ensures d.x.Finite? ==> r.x.v - d.x.v == d.dx
  {
    d.(x := Shift(d.x, d.dx), y := d.y + d.dy)
  }

  /** Moves every object by its own velocity and reports the indices of those
      that are now off-screen (`drift_all`). */
  function DriftAll(ds: seq<Driftable>): (r: (seq<Driftable>, seq<nat>))
    ensures |r.0| == |ds|
    ensures forall k :: 0 <= k < |r.1| ==> r.1[k] < |ds|
  {
    if |ds| == 0 then ([], [])
    else
      var (moved, offscreen) := DriftAll(ds[..|ds| - 1]);
      var last := Drift(ds[|ds| - 1]);
      (moved + [last], if last.OffScreen() then offscreen + [|ds| - 1] else offscreen)
  }

  /** What DriftAll computes: each object drifted by its own velocity, and in
      ascending order exactly the indices of those now off-screen. */
  lemma {:induction false} DriftAllMoves(ds: seq<Driftable>)
    ensures forall i :: 0 <= i < |ds| ==> DriftAll(ds).0[i] == Drift(ds[i])
    ensures forall k, l :: 0 <= k < l < |DriftAll(ds).1| ==> DriftAll(ds).1[k] < DriftAll(ds).1[l]
    ensures forall i :: 0 <= i < |ds| ==> (i in DriftAll(ds).1 <==> Drift(ds[i]).OffScreen())
  {
    if |ds| > 0 {
      var init := ds[..|ds| - 1];
      DriftAllMoves(init);
      var (moved, offscreen) := DriftAll(init);
      assert forall i :: 0 <= i < |init| ==> init[i] == ds[i];
      assert forall k :: 0 <= k < |offscreen| ==> offscreen[k] < |ds| - 1;
    }
  }

  /** A destroyed object is reported off-screen by the next DriftAll, whatever
      its velocity or radius. */
  lemma DestroyedIsReportedOffScreen(ds: seq<Driftable>, i: nat)
    requires i < |ds| && ds[i].x == NegInf
    ensures i in DriftAll(ds).1
  {
    DriftAllMoves(ds);
  }

  /** A destroyed object can never be hit again. */
  lemma DestroyedNeverOverlaps(d: Driftable, c: Circle)
    ensures !Overlaps(c, Destroy(d).Hitbox())
    ensures Drift(Destroy(d)).OffScreen()
  {
  }
}

=== FILE: spaceship.dfy ===
/** The player's ship (SpaceshipModel): its record and WASD movement. */
module Spaceship {
  import opened Geometry

  /** Pixels moved per tick along each axis the player steers. */
  const MovementSpeed := 10

  /** Key identifiers the controller reads from the held-keys set. */
  const Left := "a"
  const Right := "d"
  const Up := "w"
  const Down := "s"

  datatype Ship = Ship(x: int, y: int, r: int, hp: int, fuel: real, score: int, speed: int)
  {
    function Hitbox(): Circle
    {
      Circle(Finite(x), y, r)
    }
  }

  /** A freshly built ship: no score yet, and the fixed movement speed. */
  function NewShip(x: int, y: int, r: int, hp: int, fuel: real): Ship
  {
    Ship(x, y, r, hp, fuel, 0, MovementSpeed)
  }

  /** Net steering intent on one axis: -1, 0 or +1; opposite keys cancel. */
  function Intent(keys: set<string>, negative: string, positive: string): int
  {
    var v := if negative in keys then -1 else 0;
    if positive in keys then v + 1 else v
  }

  /** True when exactly one key of some axis pair is held. */
  predicate Steering(keys: set<string>)
  {
    (Left in keys) != (Right in keys) || (Up in keys) != (Down in keys)
  }

  /** One tick of player movement inside a `width` by `height` field. Moving
      costs a flat `cost` of fuel, however many axes move; each axis moves by
      the ship's speed only while the centre is more than one radius from the
      edge it heads for; nothing but x, y and fuel changes. */
  function Move(s: Ship, keys: set<string>, width: int, height: int, cost: real): (r: Ship)
    ensures r.fuel == if Steering(keys) then s.fuel - cost else s.fuel
    ensures r == s.(x := r.x, y := r.y, fuel := r.fuel)
    ensures (Left in keys) == (Right in keys) ==> r.x == s.x
    ensures Left in keys && Right !in keys ==> r.x == if s.x > s.r then s.x - s.speed else s.x
    ensures Right in keys && Left !in keys ==> r.x == if s.x < width - s.r then s.x + s.speed else s.x
    ensures (Up in keys) == (Down in keys) ==> r.y == s.y
    ensures Up in keys && Down !in keys ==> r.y == if s.y > s.r then s.y - s.speed else s.y
    ensures Down in keys && Up !in keys ==> r.y == if s.y < height - s.r then s.y + s.speed else s.y
  {
    var vx := Intent(keys, Left, Right);
    var vy := Intent(keys, Up, Down);
    var fuel := if vx != 0 || vy != 0 then s.fuel - cost else s.fuel;
    var x :=
      if vx < 0 && s.x > s.r then s.x - s.speed
      else if vx > 0 && s.x < width - s.r then s.x + s.speed
      else s.x;
    var y :=
      if vy < 0 && s.y > s.r then s.y - s.speed
      else if vy > 0 && s.y < height - s.r then s.y + s.speed
      else s.y;
    s.(x := x, y := y, fuel := fuel)
  }

  /** The ship's hitbox lies inside the field, and its centre sits on the grid
      of speed-sized steps that starts one radius from each edge. */
  predicate InField(s: Ship, width: int, height: int)
  {
    && s.speed == MovementSpeed
    && s.r <= s.x <= width - s.r
    && s.r <= s.y <= height - s.r
    && (s.x - s.r) % MovementSpeed == 0
    && (s.y - s.r) % MovementSpeed == 0
    && (width - 2 * s.r) % MovementSpeed == 0
    && (height - 2 * s.r) % MovementSpeed == 0
  }

  /** On the grid, the per-axis edge guards are enough to keep the whole hitbox
      inside the field: a step never overshoots an edge. */
  lemma {:induction false} MoveStaysInField(s: Ship, keys: set<string>, width: int, height: int, cost: real)
    requires InField(s, width, height)
    ensures InField(Move(s, keys, width, height, cost), width, height)
  {
    var r := Move(s, keys, width, height, cost);
    if s.x < width - s.r {
      assert (width - s.r - s.x) % MovementSpeed == 0;
      assert s.x + MovementSpeed <= width - s.r;
    }
    if s.y < height - s.r {
      assert (height - s.r - s.y) % MovementSpeed == 0;
      assert s.y + MovementSpeed <= height - s.r;
    }
  }
}

=== FILE: spawner.dfy ===
/** Spawning new asteroids and power-ups (`generate_asteroid_model`,
    `generate_powerup`). The random draws are parameters whose ranges are those
    of the source's inclusive `randint` calls. */
module Spawner {
  import opened Geometry
  import opened Objects
  import opened Spaceship

  /** Play-area geometry. */
  const GameWidth := 800
  const GameHeight := 800
  const ScreenWidth := 800

  /** Power-ups enter this far to the right of the play area. */
  const PowerUpOffset := 100
  const PowerUpRadius := 36
  /** Below this much fuel the spawner always hands out fuel. */
  const LowFuel := 40.0

  /** The random values one asteroid spawn draws. */
  datatype AsteroidDraw = AsteroidDraw(x: int, y: int, r: int, speed: int)

  predicate ValidAsteroidDraw(d: AsteroidDraw)
  {
    && GameWidth <= d.x <= 2 * GameWidth
    && 40 <= d.y <= GameHeight - 40
    && 20 <= d.r <= 40
    && 4 <= d.speed <= 6
  }

  /** A new asteroid right of the play area, drifting left along a row. */
  function GenerateAsteroid(d: AsteroidDraw): (a: Driftable)
    requires ValidAsteroidDraw(d)
    ensures a.kind == Asteroid
    ensures a.x.Finite? && 800 <= a.x.v <= 1600
    ensures 40 <= a.y <= 760 && 20 <= a.r <= 40
    ensures -6 <= a.dx <= -4 && a.dy == 0
  {
    Driftable(Asteroid, Finite(d.x), d.y, d.r, -d.speed, 0)
  }

  /** The random values one power-up spawn draws: which of the three kinds
      `choice` picks, and the row and speed of the new object. */
  datatype PowerUpDraw = PowerUpDraw(pick: int, y: int, speed: int)

  predicate ValidPowerUpDraw(d: PowerUpDraw)
  {
    && 0 <= d.pick < 3
    && PowerUpRadius <= d.y <= GameHeight - PowerUpRadius
    && 4 <= d.speed <= 6
  }

  /** A new power-up: fuel whenever the ship runs low, otherwise the drawn one
      of HP, fuel and score. The HP power-up is placed from the screen width,
      the others from the play-area width; both are 800. */
  function GeneratePowerUp(s: Ship, d: PowerUpDraw): (p: Driftable)
    requires ValidPowerUpDraw(d)
    ensures p.kind != Asteroid
    ensures s.fuel < 40.0 ==> p.kind == FuelPowerUp
    ensures p.x == Finite(900) && p.r == 36
    ensures 36 <= p.y <= 764 && -6 <= p.dx <= -4 && p.dy == 0
  {
    if s.fuel < LowFuel then
      Driftable(FuelPowerUp, Finite(GameWidth + PowerUpOffset), d.y, PowerUpRadius, -d.speed, 0)
    else
      var kind := if d.pick == 0 then HpPowerUp else if d.pick == 1 then FuelPowerUp else ScorePowerUp;
      var column := if kind == HpPowerUp then ScreenWidth else GameWidth;
      Driftable(kind, Finite(column + PowerUpOffset), d.y, PowerUpRadius, -d.speed, 0)
  }

  /** With enough fuel every power-up kind can be spawned. */
  lemma {:induction false} EveryPowerUpKindReachable(s: Ship, k: Kind)
    requires s.fuel >= LowFuel && k != Asteroid
    ensures exists d :: ValidPowerUpDraw(d) && GeneratePowerUp(s, d).kind == k
  {
    var pick := match k
      case HpPowerUp => 0
      case FuelPowerUp => 1
      case _ => 2;
    var d := PowerUpDraw(pick, PowerUpRadius, 4);
    assert GeneratePowerUp(s, d).kind == k;
  }

  /** The asteroid ranges are inclusive at both ends and fully covered: every
      position, row, radius and speed in them is spawned by some draw. */
  lemma {:induction false} GenerateAsteroidCovers(x: int, y: int, r: int, dx: int)
    requires 800 <= x <= 1600 && 40 <= y <= 760 && 20 <= r <= 40 && -6 <= dx <= -4
    ensures exists d :: ValidAsteroidDraw(d) && GenerateAsteroid(d) == Driftable(Asteroid, Finite(x), y, r, dx, 0)
  {
    var d := AsteroidDraw(x, y, r, -dx);
    assert GenerateAsteroid(d) == Driftable(Asteroid, Finite(x), y, r, dx, 0);
  }

  /** Every power-up the contract of GeneratePowerUp allows is spawned by some
      draw: any non-asteroid kind (only fuel when fuel is low), any row in
      [36, 764] and any speed in [4, 6]. */
  lemma {:induction false} GeneratePowerUpCovers(s: Ship, k: Kind, y: int, dx: int)
    requires k != Asteroid && (s.fuel < LowFuel ==> k == FuelPowerUp)
    requires 36 <= y <= 764 && -6 <= dx <= -4
    ensures exists d :: ValidPowerUpDraw(d) && GeneratePowerUp(s, d) == Driftable(k, Finite(900), y, 36, dx, 0)
  {
    var pick := match k
      case HpPowerUp => 0
      case FuelPowerUp => 1
      case _ => 2;
    var d := PowerUpDraw(pick, y, -dx);
    assert GeneratePowerUp(s, d) == Driftable(k, Finite(900), y, 36, dx, 0);
  }

  /** A freshly spawned object is not yet off-screen, even after its first
      drift. */
  lemma SpawnedNotOffScreen(a: AsteroidDraw, p: PowerUpDraw, s: Ship)
    requires ValidAsteroidDraw(a) && ValidPowerUpDraw(p)
    ensures !Drift(GenerateAsteroid(a)).OffScreen()
    ensures !Drift(GeneratePowerUp(s, p)).OffScreen()
  {
  }
}
